=== FILE: README.md ===
# Solita Episerver Web API filters — a Dafny model

This project models the request filters of the Solita Episerver Web API library:

- the **output-cache filter** (`EpiserverWebApiOutputCacheAttribute`). It caches GET responses
  in Episerver's object cache under a key made from the request URI. The dependency keys default
  to the placeholder `"default"`. On the first insert that placeholder is replaced by the live
  content-version key, so a content change evicts the entry. While the attribute has dependency
  keys, each entry is inserted with an absolute-timeout eviction policy over them. With null or
  empty keys the entry is inserted with a null policy, so the filter passes no expiry to the store;
- the **language filter** (`WebApiLanguageAttribute`). It picks the request's content language
  from an action argument named by one of the configured language parameter names. When enabled,
  it falls back to a string property of a DTO argument;
- the **model-validation filter** (`ValidateWebApiModelAttribute`). It answers 400 Bad Request
  for null arguments, then for an invalid model state;
- the **exception handler** (`EpiserverWebApiErrorHandler`). It turns every unhandled exception
  into a plain-text 500 response. Only local requests and administrators/editors see the
  exception text.

Modules and files:

| file | module | models |
|---|---|---|
| `optional.dfy` | `Optional` | null references (`Option`) and thrown exceptions (`Result`) |
| `text.dfy` | `Text` | `Char.IsWhiteSpace`, `string.IsNullOrWhiteSpace`, `ToLower`, ordinal substring search, `String.Replace` |
| `linq.dfy` | `Linq` | `FirstOrDefault(predicate)` as the first matching position, and `Any` |
| `http.dfy` | `Http` | HTTP methods, requests, responses with content and Content-Type, action arguments |
| `output_cache.dfy` | `OutputCache` | cacheability, cache key, placeholder resolution, eviction policy, the two hooks |
| `cache_pipeline.dfy` | `CachePipeline` | one request through before-hook, action and after-hook |
| `language.dfy` | `WebApiLanguage` | language resolution by parameter name and from DTO properties |
| `validate_model.dfy` | `ValidateModel` | the validation filter's response |
| `error_handler.dfy` | `ErrorHandler` | detail policy, result constructor, `Execute`, `Handle` |

How the C# is represented:

- The object cache is a finite map from key to `CacheEntry`. An entry holds either one of the
  filter's `CacheValue`s or a foreign object, plus the eviction policy it was inserted with.
- The ambient facts are plain parameters (`OutputCache.Ambient`, the `isLocal`/`user` arguments of
  the handler). These are the debug flag, the authenticated flag, the version-key name,
  `Request.IsLocal` and the current principal.
- Each output-cache hook returns the list of cache operations it performed (`CacheGet`,
  `ReadContentVersion`, `CacheInsert`), so "touches nothing" and "writes at most once" are
  statements about results.
- The attribute instance is part of the filter state. The after-hook rewrites its
  `CacheDependencyKeys` in place, and later requests see the rewritten keys.
- Action arguments are an ordered list of (name, value) pairs. An argument value is null, a string,
  or an object listed by its public instance properties as (name, is-string, value text).
  Reflection is replaced by that list.

Behaviour worth knowing:

- On a miss the filter reads the cache twice, once in each hook, and it reads no other key
  (`CachePipeline.Serve`).
- Placeholder resolution runs only when some key is exactly `"default"`. It then applies a
  substring replace to every key. Resolving twice gives the same keys as resolving once whenever
  the version key does not occur inside the text `"default"` (`SubstitutePlaceholderIdempotent`);
  the version key `"default"` itself leaves every key unchanged
  (`PlaceholderAsVersionKeyChangesNothing`). A version
  key that merely does not contain `"default"` is not enough
  (`SubstitutePlaceholderNotIdempotentForShortKey`).
- The content version is read on every insert whose resolved keys contain the version key.
- "First write wins": the after-hook skips the insert whenever anything is stored under the key.
- A hit is served with status 200 whatever status the stored response had. Of the stored response
  only the media type, the charset and the body text are served again
  (`CachePipeline.StoredStatusIsNotServed`).
- A hit's body is written as UTF-8, whatever charset the stored Content-Type names. The served
  header carries the stored charset. That label matches the UTF-8 bytes exactly when the charset
  is absent or names UTF-8, so only then is reading the stored text back guaranteed
  (`OutputCache.HitResponse`). A charset under which the same text has the same bytes, such as
  `us-ascii` for ASCII text, also reads back, but the model does not cover byte encodings.
- A DTO property name is lower-cased and then compared case-sensitively with the configured names.
  With the defaults, a property spelled `languageId` is therefore never matched
  (`WebApiLanguage.DefaultNamesMissLanguageIdProperty`).
- The result constructor's `ArgumentNullException` always names `content`, whichever argument was
  null.

## Model

| member | source | states |
|---|---|---|
| `OutputCache.NewOutputCacheAttribute` | Solita.Episerver.WebApi/Attributes/EpiserverWebApiOutputCacheAttribute.cs:22-45 | a new attribute keeps its duration, has the one dependency key "default", and leaves DisableForAuthenticated and EnableInDebug false, so a GET is cached iff the duration is positive and debug mode is off, whether or not the user is authenticated |
| `OutputCache.IsCacheable` | Solita.Episerver.WebApi/Attributes/EpiserverWebApiOutputCacheAttribute.cs:92-105 | a request is cacheable iff the duration is positive, the method is GET, debug mode is off or EnableInDebug is set, and the user is anonymous or DisableForAuthenticated is off |
| `OutputCache.CacheabilityCases` | Solita.Episerver.WebApi/Attributes/EpiserverWebApiOutputCacheAttribute.cs:92-105 | each of non-GET, non-positive duration, debug without EnableInDebug, and authenticated under DisableForAuthenticated switches caching off; the same GET made anonymously is cached |
| `OutputCache.CreateCacheKey` | Solita.Episerver.WebApi/Attributes/EpiserverWebApiOutputCacheAttribute.cs:132-136 | the key is the fixed prefix "Solita:EpiserverWebApiOutputCacheAttribute#" followed by the absolute URI, unchanged |
| `OutputCache.UriOfCacheKey` | Solita.Episerver.WebApi/Attributes/EpiserverWebApiOutputCacheAttribute.cs:132-136 | a key is recognised as one of the filter's exactly when it starts with the prefix, and the URI it carries rebuilds the key |
| `OutputCache.CacheKeyRoundTrip` | Solita.Episerver.WebApi/Attributes/EpiserverWebApiOutputCacheAttribute.cs:132-136 | the URI is recovered from its cache key |
| `OutputCache.CacheKeyInjective` | Solita.Episerver.WebApi/Attributes/EpiserverWebApiOutputCacheAttribute.cs:132-136 | two URIs share a key iff they are equal |
| `OutputCache.SubstitutePlaceholder` | Solita.Episerver.WebApi/Attributes/EpiserverWebApiOutputCacheAttribute.cs:115-119 | keys are rewritten only when one equals "default"; then every key gets the substring replace and the version key appears among them; otherwise the keys are kept as they are |
| `OutputCache.SubstitutePlaceholderIdempotent` | Solita.Episerver.WebApi/Attributes/EpiserverWebApiOutputCacheAttribute.cs:115-119 | when the version key does not occur inside "default", resolved keys no longer contain the placeholder and resolving again changes nothing |
| `OutputCache.LongVersionKeyIsNotInPlaceholder` | Solita.Episerver.WebApi/Attributes/EpiserverWebApiOutputCacheAttribute.cs:115-119 | a version key longer than "default" cannot occur inside it, so resolution with such a key is idempotent |
| `OutputCache.PlaceholderAsVersionKeyChangesNothing` | Solita.Episerver.WebApi/Attributes/EpiserverWebApiOutputCacheAttribute.cs:115-119 | with "default" itself as the version key, resolution leaves every key list unchanged |
| `OutputCache.SubstitutePlaceholderNotIdempotentForShortKey` | Solita.Episerver.WebApi/Attributes/EpiserverWebApiOutputCacheAttribute.cs:115-119 | with version key "def" (which does not contain "default"), keys ["default","defaultault"] resolve to ["def","default"], which a second resolution rewrites to ["def","def"] |
| `OutputCache.DependencyKeysSettleAfterFirstInsert` | Solita.Episerver.WebApi/Attributes/EpiserverWebApiOutputCacheAttribute.cs:115-119 | after the first insert has resolved the attribute's keys, a later after-hook leaves the attribute unchanged, for a version key longer than "default" |
| `OutputCache.CreateCacheEvictionPolicy` | Solita.Episerver.WebApi/Attributes/EpiserverWebApiOutputCacheAttribute.cs:107-130 | the policy is null iff the keys are null or empty, and then nothing is rewritten or read; otherwise it is (duration seconds, Absolute, keys) where the keys are those resolved against the version key, the resolved keys are kept on the attribute, and the version is read iff the version key is among them, always so when the placeholder was present |
| `OutputCache.DefaultDependencyIsTheVersionKey` | Solita.Episerver.WebApi/Attributes/EpiserverWebApiOutputCacheAttribute.cs:107-130 | with the attribute's default keys the policy depends on the version key alone, the attribute keeps that key, and the version is read |
| `OutputCache.CaptureValue` | Solita.Episerver.WebApi/Attributes/EpiserverWebApiOutputCacheAttribute.cs:80-85 | a response is stored exactly when it has content with a Content-Type header, and the stored value is that header's media type and charset with the body text; otherwise the null-reference fault says which part was missing |
| `OutputCache.HitResponse` | Solita.Episerver.WebApi/Attributes/EpiserverWebApiOutputCacheAttribute.cs:63-65 | a hit is served with status 200, the stored media type and charset as Content-Type and the stored text written as UTF-8; it is labelled with the charset it is written in iff the stored charset is absent or names UTF-8, and then capturing it again yields the very value it was built from |
| `OutputCache.CapturedResponseIsServedBack` | Solita.Episerver.WebApi/Attributes/EpiserverWebApiOutputCacheAttribute.cs:63-85 | a stored response is served back with status 200, the same Content-Type header and the same body text, and the served label matches the UTF-8 bytes iff the original charset reads as UTF-8, so only then is reading the text back guaranteed |
| `OutputCache.CaptureValueDependsOnlyOnContent` | Solita.Episerver.WebApi/Attributes/EpiserverWebApiOutputCacheAttribute.cs:80-85 | two storable responses give the same cache value iff their Content-Type headers and body texts are the same; status and the charset the bytes were written in play no part |
| `OutputCache.CachedValue` | Solita.Episerver.WebApi/Attributes/EpiserverWebApiOutputCacheAttribute.cs:56-58 | a lookup finds a value iff the key holds one of the filter's values; a foreign object counts as a miss |
| `OutputCache.OnActionExecuting` | Solita.Episerver.WebApi/Attributes/EpiserverWebApiOutputCacheAttribute.cs:47-66 | a non-cacheable request gets no response and no cache access; a cacheable one does exactly one read of its key and gets a response iff one of the filter's values is stored there, that response being the hit built from the stored value |
| `OutputCache.OnActionExecuted` | Solita.Episerver.WebApi/Attributes/EpiserverWebApiOutputCacheAttribute.cs:68-90 | nothing happens for a non-cacheable request or a thrown action; otherwise the key is read first and no other read follows; an existing entry is never replaced; the captured response is inserted as the last and only write exactly when the key is free and the response is storable, with the policy the eviction-policy builder gives for the attribute's keys, which the attribute then keeps; only the content version may be read between the read and the insert, at most once, and it is read iff the policy depends on the version key; only the attribute's dependency keys may change |
| `OutputCache.NonCacheableRequestIsUntouched` | Solita.Episerver.WebApi/Attributes/EpiserverWebApiOutputCacheAttribute.cs:47-73 | for a non-cacheable request neither hook reads or writes the cache, sets a response or changes the state |
| `CachePipeline.Serve` | Solita.Episerver.WebApi/Attributes/EpiserverWebApiOutputCacheAttribute.cs:47-90 | the action is skipped iff the request is a cacheable hit, and the hit response is then served after a single read of the key; a cacheable miss reads the key once in each hook (only in the first when the action threw) and reads nothing else; when the action runs, the cache ends as the after-hook leaves it and the caller gets the action's response or exception, or the filter's fault when storing a fresh response fails; a thrown action is never cached; a non-cacheable request is passed through untouched; there is at most one cache write per request |
| `CachePipeline.RepeatedRequestIsServedFromCache` | Solita.Episerver.WebApi/Attributes/EpiserverWebApiOutputCacheAttribute.cs:47-90 | the same cacheable GET twice in a row: the second does not run the action and returns the first one's Content-Type header and body text, written as UTF-8 |
| `CachePipeline.ForeignEntryBlocksCaching` | Solita.Episerver.WebApi/Attributes/EpiserverWebApiOutputCacheAttribute.cs:56-78 | an object of another type under the key makes every request a miss that runs the action and writes nothing |
| `CachePipeline.StoredStatusIsNotServed` | Solita.Episerver.WebApi/Attributes/EpiserverWebApiOutputCacheAttribute.cs:63-84 | a stored response of any status is served on the next request as the hit built from it: status 200, its Content-Type header and its body text, and nothing else of it |
| `Text.ReplaceAll` | Solita.Episerver.WebApi/Attributes/EpiserverWebApiOutputCacheAttribute.cs:118 | the substring replace leaves a key without the placeholder text unchanged, and on a key containing it yields a key containing the version key |
| `Text.ReplaceAllOfPattern` | Solita.Episerver.WebApi/Attributes/EpiserverWebApiOutputCacheAttribute.cs:118 | the key "default" itself becomes exactly the version key |
| `Text.ReplaceAllWithItself` | Solita.Episerver.WebApi/Attributes/EpiserverWebApiOutputCacheAttribute.cs:118 | replacing the placeholder text by itself leaves any key unchanged |
| `Text.NullOrWhiteSpaceIsEmptyAfterTrim` | Solita.Episerver.WebApi/Attributes/WebApiLanguageAttribute.cs:53 | a value is null-or-white-space iff it is null or nothing is left after trimming leading white space |
| `Text.ToLower` | Solita.Episerver.WebApi/Attributes/WebApiLanguageAttribute.cs:99 | lower-casing keeps the length, lowers each A..Z letter, keeps every other character, and leaves no upper-case ASCII letter |
| `Text.ToLowerIsIdempotent` | Solita.Episerver.WebApi/Attributes/WebApiLanguageAttribute.cs:99 | lower-casing a lower-cased name changes nothing |
| `Linq.FirstIndex` | Solita.Episerver.WebApi/Attributes/WebApiLanguageAttribute.cs:60 | `FirstOrDefault` with a predicate picks the first element satisfying it, and none iff no element does |
| `Linq.FirstIndexIsUnique` | Solita.Episerver.WebApi/Attributes/WebApiLanguageAttribute.cs:60 | an element satisfying the predicate with no earlier match is the one picked |
| `Linq.Any` | Solita.Episerver.WebApi/Attributes/ValidateWebApiModelAttribute.cs:20 | `Any` holds iff some element satisfies the predicate |
| `Http.Lookup` | Solita.Episerver.WebApi/Attributes/WebApiLanguageAttribute.cs:60-61 | a lookup by key is absent iff no argument has that name, and otherwise returns a value stored under that name |
| `WebApiLanguage.NewLanguageAttribute` | Solita.Episerver.WebApi/Attributes/WebApiLanguageAttribute.cs:22-34 | a new attribute consults the names "language", "languageId", "epslanguage" in that order and keeps the DTO option it was given (false when the argument is omitted) |
| `WebApiLanguage.AsString` | Solita.Episerver.WebApi/Attributes/WebApiLanguageAttribute.cs:61 | the "as string" conversion yields a string exactly for string arguments |
| `WebApiLanguage.ResolveLanguageByParamName` | Solita.Episerver.WebApi/Attributes/WebApiLanguageAttribute.cs:58-62 | a by-name language is always the string value of an argument under one of the configured names |
| `WebApiLanguage.ByParamNameConsultsFirstPresentNameOnly` | Solita.Episerver.WebApi/Attributes/WebApiLanguageAttribute.cs:58-62 | only the first configured name present as an argument key is consulted; its value as a string is the result even when null or not a string |
| `WebApiLanguage.ByParamNameWithoutPresentName` | Solita.Episerver.WebApi/Attributes/WebApiLanguageAttribute.cs:60-61 | when no configured name is an argument key the by-name language is null |
| `WebApiLanguage.PublicStringProperties` | Solita.Episerver.WebApi/Attributes/WebApiLanguageAttribute.cs:102-107 | exactly the string-typed properties of an object argument are candidates; strings and nulls have none |
| `WebApiLanguage.FindLanguageProperty` | Solita.Episerver.WebApi/Attributes/WebApiLanguageAttribute.cs:96-100 | a found property is the first of the argument's public string properties, in reflection order, whose lower-cased name is among the configured names; when none is found no property qualifies |
| `WebApiLanguage.FirstLanguagePropertyWins` | Solita.Episerver.WebApi/Attributes/WebApiLanguageAttribute.cs:85-107 | of several language properties of an object the first in reflection order is found, and its value is the object's language |
| `WebApiLanguage.ResolveLanguageFromDto` | Solita.Episerver.WebApi/Attributes/WebApiLanguageAttribute.cs:85-94 | a language found in one argument is the value of its language property, null when that value is null; an argument without one, null arguments included, yields none |
| `WebApiLanguage.ResolveLanguageFromDtos` | Solita.Episerver.WebApi/Attributes/WebApiLanguageAttribute.cs:69-78 | the DTO scan yields a non-white-space language taken from one of the arguments, and null iff no argument yields one |
| `WebApiLanguage.DtoScanTakesFirstArgumentWithLanguage` | Solita.Episerver.WebApi/Attributes/WebApiLanguageAttribute.cs:69-78 | the DTO scan returns the language of the first argument that has one, passing over earlier null or language-less arguments |
| `WebApiLanguage.ResolveLanguage` | Solita.Episerver.WebApi/Attributes/WebApiLanguageAttribute.cs:50-56 | the result is null or non-white-space; a usable by-name value wins; otherwise the DTO scan decides when the option is on and the result is null when it is off; any result is a configured-name string argument or a language property of an argument |
| `WebApiLanguage.FallsBackToFirstArgumentWithLanguage` | Solita.Episerver.WebApi/Attributes/WebApiLanguageAttribute.cs:50-78 | with the DTO option and no argument under a configured name, the language of the first argument carrying one is installed |
| `WebApiLanguage.DefaultAttributeReadsLanguageArgument` | Solita.Episerver.WebApi/Attributes/WebApiLanguageAttribute.cs:50-62 | with the default names a non-blank string argument named "language" in first position is installed, whatever the other arguments and the DTO option |
| `WebApiLanguage.DefaultNamesMissLanguageIdProperty` | Solita.Episerver.WebApi/Attributes/WebApiLanguageAttribute.cs:96-100 | with the default names a DTO property spelled "languageId" in any case is never a language property |
| `ValidateModel.OnActionExecuting` | Solita.Episerver.WebApi/Attributes/ValidateWebApiModelAttribute.cs:17-30 | any null argument gives 400 "Arguments cannot be null" whatever the model state; with all arguments present, an invalid model state gives 400 carrying that state and a valid one gives no response |
| `ValidateModel.ValidIffNoErrors` | Solita.Episerver.WebApi/Attributes/ValidateWebApiModelAttribute.cs:26 | the model state is valid exactly when binding recorded no error in any entry |
| `ErrorHandler.IsEditorOrAdmin` | Solita.Episerver.WebApi/EpiserverWebApiErrorHandler.cs:43-46 | false for a null principal, otherwise true iff the principal holds one of WebAdmins, WebEditors, Administrators |
| `ErrorHandler.ShowDetailedError` | Solita.Episerver.WebApi/EpiserverWebApiErrorHandler.cs:37-41 | details are shown iff the request is local or the principal holds a privileged role; a remote anonymous request never sees them |
| `ErrorHandler.NewTextPlainResult` | Solita.Episerver.WebApi/EpiserverWebApiErrorHandler.cs:54-64 | construction fails with ArgumentNullException("content") iff the content, encoding or request is null, and otherwise keeps all three |
| `ErrorHandler.Execute` | Solita.Episerver.WebApi/EpiserverWebApiErrorHandler.cs:71-78 | the response has status 500, is linked to the originating request and carries the content as text/plain in the given encoding |
| `ErrorHandler.Handle` | Solita.Episerver.WebApi/EpiserverWebApiErrorHandler.cs:25-35 | the result is UTF-8 and linked to the request; its content is the exception text for local or privileged users and exactly "An error has occurred." for everyone else; a missing request makes it throw |
| `ErrorHandler.HandledExceptionResponse` | Solita.Episerver.WebApi/EpiserverWebApiErrorHandler.cs:25-78 | every handled exception ends as a UTF-8 text/plain 500 response linked to its request, showing the exception text only to local or privileged users |

## Left out

- Cache-store internals: absolute expiry after the duration, and the cascade that evicts entries when a dependency key is removed. These belong to Episerver's object cache, which is not part of this model. The store is a map with get and insert, and a failing store is not modelled.
- The content-version provider's own behaviour: reading the version is recorded as the `ReadContentVersion` effect. Its side effect of creating the version key in the cache is not modelled.
- Service-locator lookups, `HttpContext.Current` (debug flag, identity, `IsLocal`, `RawUrl`) and `PrincipalInfo.CurrentPrincipal` are parameters. Their failures (a missing service, a null user) are not modelled.
- `ReadAsStringAsync().Result`: the response body is an already-read string.
- `OutputCache.CaptureValue`: the action's content is taken to be labelled with the charset its bytes were written in, so reading it gives back its text. Decoding mislabelled bytes into other text would need the charsets' byte encodings, which are not part of this model.
- Response and content headers other than Content-Type, and the reason phrase, are not modelled. A hit carries none of the stored response's other headers.
- Framework response construction: `MediaTypeHeaderValue` rejecting a malformed media type, `CreateErrorResponse` formatting, and the `Task` wrapper of `ExecuteAsync`. The model keeps only the values these receive.
- `WebApiLanguage.ResolveLanguage`: installing the language as thread culture, UI culture and preferred content culture is left out, including `CultureInfo` rejecting an unknown name. The model computes only the language the filter would install.
- `Text.ToLower`: lower-casing is modelled for the ASCII letters only, because the culture-dependent casing tables are not part of this model. It is used for DTO property names and for comparing charset names.
- `Http.Lookup`: argument names are compared exactly, and dictionary enumeration order is the list order. The framework's dictionary comparer is not part of this model.
- Null elements inside `CacheDependencyKeys` or `LanguageParamNames`, and a null `LanguageParamNames`, are not modelled. In the source these throw `NullReferenceException` or `ArgumentNullException`.
- String-typed indexer properties of a DTO are not modelled. Reflection would list them and `GetValue` would then throw.
- `HttpMethod` comparison: the case-insensitive method-name comparison is folded into the `Get` constructor.
- The exception handler's `Log.Error` call.
- `StructureMapWebApiDependencyResolver.cs`: an adapter over a dependency-injection container that is not part of this model.
- Concurrency: two simultaneous misses for one key, and the unsynchronised rewrite of `CacheDependencyKeys`. Requests are modelled one at a time.

=== FILE: cache_pipeline.dfy ===
/**
  One request through the output-cache filter as the Web API action-filter pipeline runs it:
  the before-hook runs first; when it sets a response the action and the after-hook are
  skipped; otherwise the action runs and the after-hook sees how it finished. The action is
  given as the outcome it would produce, so "the action ran" is an observable flag.
 */
module CachePipeline {
  import opened Optional
  import opened Http
  import opened OutputCache

  /** What the caller receives: a response, the action's own exception, or the exception the
      filter raised while storing the response. */
  datatype Served = Responded(response: HttpResponse) | Raised(exception: string) | FilterRaised(fault: FilterFault)

  datatype ServeResult = ServeResult(served: Served, state: FilterState, effects: seq<Effect>, actionInvoked: bool)

  /** The number of cache writes among the effects. */
  function InsertCount(effects: seq<Effect>): (n: nat)
    ensures n <= |effects|
    ensures n == 0 <==> forall i :: 0 <= i < |effects| ==> !effects[i].CacheInsert?
  {
    if |effects| == 0 then 0
    else (if effects[0].CacheInsert? then 1 else 0) + InsertCount(effects[1..])
  }

  lemma {:induction false} InsertCountAppend(a: seq<Effect>, b: seq<Effect>)
    ensures InsertCount(a + b) == InsertCount(a) + InsertCount(b)
    decreases |a|
  {
    if |a| == 0 {
      assert a + b == b;
    } else {
      assert (a + b)[1..] == a[1..] + b;
      InsertCountAppend(a[1..], b);
    }
  }

  /** Effects in which only the last one may be a write contain at most one write. */
  lemma {:induction false} OnlyLastMayInsert(effects: seq<Effect>)
    requires forall i :: 0 <= i < |effects| - 1 ==> !effects[i].CacheInsert?
    ensures InsertCount(effects) <= 1
    decreases |effects|
  {
    if |effects| > 1 {
      OnlyLastMayInsert(effects[1..]);
    }
  }

  /** Serves one request through the filter around an action that would finish with `outcome`. */
  function Serve(st: FilterState, env: Ambient, req: Request, outcome: ActionOutcome): (r: ServeResult)
    // a non-cacheable request is passed straight through and the cache is never consulted
    ensures !IsCacheable(st.attribute, env, req.verb) ==>
      && r.actionInvoked && r.effects == [] && r.state == st
      && r.served == (match outcome case Threw(e) => Raised(e) case Returned(resp) => Responded(resp))
    // the action is skipped exactly on a hit, and then the stored value is served unchanged
    ensures !r.actionInvoked <==>
      IsCacheable(st.attribute, env, req.verb) && CachedValue(st.cache, CreateCacheKey(req.absoluteUri)).Some?
    ensures !r.actionInvoked ==>
      && r.state == st
      && r.served == Responded(HitResponse(CachedValue(st.cache, CreateCacheKey(req.absoluteUri)).value))
    // an action that threw is never cached, and its exception reaches the caller
    ensures outcome.Threw? ==> r.state == st
    ensures outcome.Threw? && r.actionInvoked ==> r.served == Raised(outcome.exception)
    // when the action runs, the cache ends as the after-hook leaves it, after both hooks' effects
    ensures r.actionInvoked ==>
      && r.state == OnActionExecuted(st, env, req, outcome).state
      && r.effects == OnActionExecuting(st, env, req).effects + OnActionExecuted(st, env, req, outcome).effects
    // and the caller gets the action's response, unless storing it made the filter throw
    ensures r.actionInvoked && outcome.Returned? ==>
      r.served ==
        if && IsCacheable(st.attribute, env, req.verb)
           && CreateCacheKey(req.absoluteUri) !in st.cache
           && CaptureValue(outcome.response).Failure?
        then FilterRaised(CaptureValue(outcome.response).error)
        else Responded(outcome.response)
    // a hit reads the key once; a miss reads it once in each hook, the second time only when
    // the action returned; no other key is read
    ensures !r.actionInvoked ==> r.effects == [CacheGet(CreateCacheKey(req.absoluteUri))]
    ensures Reads(r.effects) ==
      if !IsCacheable(st.attribute, env, req.verb) then []
      else if !r.actionInvoked || outcome.Threw? then [CreateCacheKey(req.absoluteUri)]
      else [CreateCacheKey(req.absoluteUri), CreateCacheKey(req.absoluteUri)]
    // at most one cache write per request
    ensures InsertCount(r.effects) <= 1
  {
    var before := OnActionExecuting(st, env, req);
    if before.response.Some? then
      ServeResult(Responded(before.response.value), st, before.effects, false)
    else
      var after := OnActionExecuted(st, env, req, outcome);
      var served :=
        if after.fault.Some? then FilterRaised(after.fault.value)
        else match outcome case Threw(e) => Raised(e) case Returned(resp) => Responded(resp);
      InsertCountAppend(before.effects, after.effects);
      ReadsAppend(before.effects, after.effects);
      OnlyLastMayInsert(after.effects);
      ServeResult(served, after.state, before.effects + after.effects, true)
  }

  /** The same cacheable GET issued twice in a row: the second is served from the cache without
      running the action, with the first one's Content-Type header (media type and charset) and
      body text, the text written as UTF-8. */
  lemma RepeatedRequestIsServedFromCache(
    st: FilterState, env: Ambient, req: Request, out1: ActionOutcome, out2: ActionOutcome)
    requires IsCacheable(st.attribute, env, req.verb)
    requires CreateCacheKey(req.absoluteUri) in st.cache ==>
      st.cache[CreateCacheKey(req.absoluteUri)].item.OutputValue?
    requires out1.Returned? && CaptureValue(out1.response).Success?
    ensures var r1 := Serve(st, env, req, out1);
      var r2 := Serve(r1.state, env, req, out2);
      && !r2.actionInvoked
      && r1.served.Responded? && r2.served.Responded?
      && r1.served.response.content.Some? && r2.served.response.content.Some?
      && r2.served.response.content.value.contentType == r1.served.response.content.value.contentType
      && r2.served.response.content.value.body == r1.served.response.content.value.body
      && r2.served.response.content.value.writtenIn == Utf8Charset
  {
    var key := CreateCacheKey(req.absoluteUri);
    var r1 := Serve(st, env, req, out1);
    if key !in st.cache {
      assert WritesCache(st, env, req, out1);
      assert CachedValue(r1.state.cache, key) == Some(CaptureValue(out1.response).value);
      CapturedResponseIsServedBack(out1.response);
    }
  }

  /** An object of another type stored under a request's key makes every request for it a miss
      that runs the action and never writes the cache. */
  lemma ForeignEntryBlocksCaching(st: FilterState, env: Ambient, req: Request, outcome: ActionOutcome)
    requires CreateCacheKey(req.absoluteUri) in st.cache
    requires st.cache[CreateCacheKey(req.absoluteUri)].item == ForeignObject
    ensures var r := Serve(st, env, req, outcome);
      r.actionInvoked && r.state == st && InsertCount(r.effects) == 0
  {
  }

  /** A hit is always served with status 200, even when the stored response had another status;
      of the stored response only its Content-Type header and body text are served again. */
  lemma StoredStatusIsNotServed(st: FilterState, env: Ambient, req: Request, resp: HttpResponse, later: ActionOutcome)
    requires IsCacheable(st.attribute, env, req.verb)
    requires CreateCacheKey(req.absoluteUri) !in st.cache
    requires CaptureValue(resp).Success?
    ensures var r1 := Serve(st, env, req, Returned(resp));
      var r2 := Serve(r1.state, env, req, later);
      && r2.served == Responded(HitResponse(CaptureValue(resp).value))
      && r2.served.response.status == StatusOk
      && r2.served.response.content.value.contentType == resp.content.value.contentType
      && r2.served.response.content.value.body == resp.content.value.body
  {
    RepeatedRequestIsServedFromCache(st, env, req, Returned(resp), later);
    CapturedResponseIsServedBack(resp);
  }
}

=== FILE: error_handler.dfy ===
/**
  The Web API exception handler: every unhandled exception becomes a plain-text 500 response.
  Requests from the local machine, and users in the administrator or editor roles, see the
  full exception text; everyone else sees a fixed message.
 */
module ErrorHandler {
  import opened Optional
  import opened Http

  /** The current principal, through the roles `IsInRole` answers true for. */
  datatype Principal = Principal(roles: set<string>)

  const AdminRole: string := "WebAdmins"
  const EditorRole: string := "WebEditors"
  const AdministratorsRole: string := "Administrators"

  /** The roles that may see exception details. */
  const PrivilegedRoles: set<string> := {AdminRole, EditorRole, AdministratorsRole}

  const GenericErrorMessage: string := "An error has occurred."

  datatype Encoding = Utf8 | OtherEncoding(webName: string)

  /** `user.IsInRole(role)`. */
  predicate IsInRole(user: Principal, role: string) {
    role in user.roles
  }

  /** A non-null principal in one of the administrator or editor roles. */
  function IsEditorOrAdmin(user: Option<Principal>): (r: bool)
    ensures r <==> user.Some? && user.value.roles * PrivilegedRoles != {}
  {
    var r := && user.Some?
             && (IsInRole(user.value, AdminRole) || IsInRole(user.value, EditorRole) || IsInRole(user.value, AdministratorsRole));
    assert r <==> user.Some? && user.value.roles * PrivilegedRoles != {} by {
      if user.Some? && user.value.roles * PrivilegedRoles != {} {
        var role :| role in user.value.roles * PrivilegedRoles;
      }
      if r {
        assert AdminRole in user.value.roles * PrivilegedRoles
            || EditorRole in user.value.roles * PrivilegedRoles
            || AdministratorsRole in user.value.roles * PrivilegedRoles;
      }
    }
    r
  }

  /** Details are shown to local requests and to administrators and editors. */
  function ShowDetailedError(isLocal: bool, user: Option<Principal>): (r: bool)
    ensures r <==> isLocal || (user.Some? && user.value.roles * PrivilegedRoles != {})
    ensures !isLocal && user.None? ==> !r
  {
    isLocal || IsEditorOrAdmin(user)
  }

  /** The `InternalServerErrorTextPlainResult` fields. */
  datatype TextPlainResult = TextPlainResult(content: string, encoding: Encoding, request: Request)

  /** `ArgumentNullException` with its parameter name. */
  datatype ArgumentNullError = ArgumentNullError(paramName: string)

  /** The result's constructor: throws when any argument is null, always naming "content". */
  function NewTextPlainResult(content: Option<string>, encoding: Option<Encoding>, request: Option<Request>)
    : (r: Result<TextPlainResult, ArgumentNullError>)
    ensures r.Failure? <==> content.None? || encoding.None? || request.None?
    ensures r.Failure? ==> r.error == ArgumentNullError("content")
    ensures r.Success? ==>
      && Some(r.value.content) == content
      && Some(r.value.encoding) == encoding
      && Some(r.value.request) == request
  {
    if content.None? || encoding.None? || request.None? then Failure(ArgumentNullError("content"))
    else Success(TextPlainResult(content.value, encoding.value, request.value))
  }

  /** `StringContent(text, encoding)`: its text, encoding and the media type it declares. */
  datatype StringContent = StringContent(text: string, encoding: Encoding, mediaType: string)

  /** The response message `Execute` builds. */
  datatype ErrorResponseMessage = ErrorResponseMessage(status: int, requestMessage: Request, content: StringContent)

  /** `Execute`: a 500 response linked to the originating request, carrying the content as
      plain text in the result's encoding. */
  function Execute(res: TextPlainResult): (r: ErrorResponseMessage)
    ensures r.status == StatusInternalServerError
    ensures r.requestMessage == res.request
    ensures r.content.text == res.content && r.content.encoding == res.encoding
    ensures r.content.mediaType == "text/plain"
  {
    ErrorResponseMessage(StatusInternalServerError, res.request, StringContent(res.content, res.encoding, "text/plain"))
  }

  /** What the handler is given: the exception (through its `ToString()` text) and the request. */
  datatype ExceptionContext = ExceptionContext(exceptionText: string, request: Option<Request>)

  /** `Handle`: the result it assigns, or the exception the result's constructor throws when the
      context has no request. */
  function Handle(ctx: ExceptionContext, isLocal: bool, user: Option<Principal>)
    : (r: Result<TextPlainResult, ArgumentNullError>)
    ensures r.Failure? <==> ctx.request.None?
    ensures r.Success? ==> r.value.encoding == Utf8 && r.value.request == ctx.request.value
    ensures r.Success? && (isLocal || IsEditorOrAdmin(user)) ==> r.value.content == ctx.exceptionText
    ensures r.Success? && !isLocal && !IsEditorOrAdmin(user) ==> r.value.content == GenericErrorMessage
  {
    var content := if ShowDetailedError(isLocal, user) then ctx.exceptionText else GenericErrorMessage;
    NewTextPlainResult(Some(content), Some(Utf8), ctx.request)
  }

  /** The response every unhandled exception turns into: status 500, UTF-8 plain text, linked to
      the request; a remote user outside the privileged roles never gets the exception text
      (unless it happens to equal the fixed message). */
  lemma HandledExceptionResponse(ctx: ExceptionContext, isLocal: bool, user: Option<Principal>)
    requires ctx.request.Some?
    ensures Handle(ctx, isLocal, user).Success?
    ensures var resp := Execute(Handle(ctx, isLocal, user).value);
      && resp.status == StatusInternalServerError
      && resp.requestMessage == ctx.request.value
      && resp.content.encoding == Utf8
      && resp.content.mediaType == "text/plain"
      && (resp.content.text == ctx.exceptionText <==> ShowDetailedError(isLocal, user) || ctx.exceptionText == GenericErrorMessage)
      && (!isLocal && (user.None? || user.value.roles * PrivilegedRoles == {}) ==> resp.content.text == GenericErrorMessage)
  {
  }
}

=== FILE: http.dfy ===
/**
  The parts of ASP.NET Web API the filters read or produce, reduced to plain values:
  the request method and URI, a response with its optional content and content-type
  header, and the action arguments as an ordered list of (name, value) pairs.
 */
module Http {
  import opened Optional
  import opened Text

  /** `System.Net.Http.HttpMethod`; the standard verbs and any other verb by name. */
  datatype HttpMethod = Get | Post | Put | Delete | Head | Options | Trace | Other(name: string)

  /** The request as the filters see it: its method and `RequestUri.AbsoluteUri`. */
  datatype Request = Request(verb: HttpMethod, absoluteUri: string)

  /** `MediaTypeHeaderValue`: a media type such as "application/json" and an optional charset. */
  datatype MediaTypeHeader = MediaTypeHeader(mediaType: string, charSet: Option<string>)

  /** `HttpContent`: its optional Content-Type header, and its body as the text that was
      written into it together with the name of the charset its bytes were written in. */
  datatype HttpContent = HttpContent(contentType: Option<MediaTypeHeader>, body: string, writtenIn: string)

  const Utf8Charset: string := "utf-8"

  /** Charset names compare without regard to ASCII letter case. */
  predicate SameCharset(a: string, b: string) {
    ToLower(a) == ToLower(b)
  }

  /** The charset `ReadAsStringAsync` decodes with: the header's charset, else UTF-8. */
  function ReadCharset(c: HttpContent): string {
    match c.contentType
    case Some(MediaTypeHeader(_, Some(cs))) => cs
    case _ => Utf8Charset
  }

  /** The content is labelled with the charset its bytes were written in, so reading it as a
      string gives back `body`. Otherwise the bytes are decoded with another charset, and the
      text a reader gets is not part of this model. */
  predicate LabelledAsWritten(c: HttpContent) {
    SameCharset(ReadCharset(c), c.writtenIn)
  }

  /** `HttpResponseMessage`: a status code and optional content. */
  datatype HttpResponse = HttpResponse(status: int, content: Option<HttpContent>)

  const StatusOk: int := 200
  const StatusBadRequest: int := 400
  const StatusInternalServerError: int := 500

  /** A public instance property of an argument object: its name, whether its declared type
      is `string`, and its value rendered by `ToString()` (null when the value is null). */
  datatype Property = Property(name: string, isString: bool, value: Option<string>)

  /** An action argument value: null, a string, or any other object with its properties. */
  datatype Arg = NullArg | StrArg(s: string) | ObjArg(properties: seq<Property>)

  datatype ActionArgument = ActionArgument(name: string, value: Arg)

  /** The argument names, in the dictionary's enumeration order. */
  function Names(args: seq<ActionArgument>): (r: seq<string>)
    ensures |r| == |args|
    ensures forall i :: 0 <= i < |args| ==> r[i] == args[i].name
  {
    seq(|args|, i requires 0 <= i < |args| => args[i].name)
  }

  /** `ActionArguments.Values`, in enumeration order. */
  function Values(args: seq<ActionArgument>): (r: seq<Arg>)
    ensures |r| == |args|
    ensures forall i :: 0 <= i < |args| ==> r[i] == args[i].value
  {
    seq(|args|, i requires 0 <= i < |args| => args[i].value)
  }

  /** Dictionary lookup by key: absent (`None`) or the value stored under `name`. */
  function Lookup(args: seq<ActionArgument>, name: string): (r: Option<Arg>)
    ensures r.None? <==> name !in Names(args)
    ensures r.Some? ==> exists i :: 0 <= i < |args| && args[i] == ActionArgument(name, r.value)
  {
    if |args| == 0 then None
    else if args[0].name == name then Some(args[0].value)
    else
      var r := Lookup(args[1..], name);
      assert Names(args) == [args[0].name] + Names(args[1..]);
      assert r.Some? ==> exists i :: 0 <= i < |args| && args[i] == ActionArgument(name, r.value) by {
        if r.Some? {
          var j :| 0 <= j < |args[1..]| && args[1..][j] == ActionArgument(name, r.value);
          assert args[j + 1] == ActionArgument(name, r.value);
        }
      }
      r
  }
}

=== FILE: language.dfy ===
/**
  The Web API language filter: picks the request's content language from an action argument
  whose name is one of the configured language parameter names, or, when enabled, from a
  string property of a DTO argument whose lower-cased name is one of those names. A null or
  white-space value counts as no language. The chosen language (null: keep the current
  culture) is what the filter would install as thread culture and preferred content culture.
 */
module WebApiLanguage {
  import opened Optional
  import opened Text
  import opened Linq
  import opened Http

  const DefaultLanguageParamNames: seq<string> := ["language", "languageId", "epslanguage"]

  /** The attribute instance: `LanguageParamNames` and the constructor's `useDtoLanguageParameter`. */
  datatype LanguageAttribute = LanguageAttribute(languageParamNames: seq<string>, useDtoLanguageParameter: bool)

  /** `new WebApiLanguageAttribute(useDtoLanguageParameter)` with the default names. */
  function NewLanguageAttribute(useDtoLanguageParameter: bool): (r: LanguageAttribute)
    ensures r.useDtoLanguageParameter == useDtoLanguageParameter
    // the names consulted, in this order: "language", "languageId", "epslanguage"
    ensures |r.languageParamNames| == 3
    ensures r.languageParamNames[0] == "language"
    ensures r.languageParamNames[1] == "languageId"
    ensures r.languageParamNames[2] == "epslanguage"
  {
    LanguageAttribute(DefaultLanguageParamNames, useDtoLanguageParameter)
  }

  /** `value as string`: the string itself, or null for null and for values of any other type. */
  function AsString(v: Arg): (r: Option<string>)
    ensures r.Some? <==> v.StrArg?
  {
    match v
    case StrArg(s) => Some(s)
    case _ => None
  }

  /** The value of the first configured name that is a key of the arguments, as a string; null
      when no configured name is a key. */
  function ResolveLanguageByParamName(names: seq<string>, args: seq<ActionArgument>): (r: Option<string>)
    ensures r.Some? ==> exists i :: 0 <= i < |names| && Lookup(args, names[i]) == Some(StrArg(r.value))
  {
    match FirstIndex(names, (n: string) => n in Names(args))
    case None => None
    case Some(i) => AsString(Lookup(args, names[i]).value)
  }

  /** Only the first configured name present among the argument keys is consulted: the result
      is that argument's value as a string, even when it is null or not a string and a later
      name holds a usable string. With no configured name present the result is null. */
  lemma ByParamNameConsultsFirstPresentNameOnly(names: seq<string>, args: seq<ActionArgument>, i: nat)
    requires i < |names| && names[i] in Names(args)
    requires forall j :: 0 <= j < i ==> names[j] !in Names(args)
    ensures ResolveLanguageByParamName(names, args) == AsString(Lookup(args, names[i]).value)
  {
    FirstIndexIsUnique(names, (n: string) => n in Names(args), i);
  }

  lemma ByParamNameWithoutPresentName(names: seq<string>, args: seq<ActionArgument>)
    requires forall j :: 0 <= j < |names| ==> names[j] !in Names(args)
    ensures ResolveLanguageByParamName(names, args).None?
  {
  }

  /** A property is a language property when its declared type is `string` and its name,
      lower-cased, is one of the configured names (compared case-sensitively). */
  predicate IsLanguageProperty(names: seq<string>, p: Property) {
    p.isString && ToLower(p.name) in names
  }

  /** The public string properties of an argument object. A string argument has none: the only
      public instance properties of `System.String` are its length and its character indexer. */
  function PublicStringProperties(v: Arg): (r: seq<Property>)
    ensures forall j :: 0 <= j < |r| ==> r[j].isString
    ensures v.ObjArg? ==> forall p :: p in v.properties && p.isString ==> p in r
    ensures forall p :: p in r ==> v.ObjArg? && p in v.properties
  {
    match v
    case ObjArg(props) => StringPropertiesOf(props)
    case _ => []
  }

  /** The string-typed properties among `props`, in the order reflection lists them. */
  function StringPropertiesOf(props: seq<Property>): (r: seq<Property>)
    ensures forall j :: 0 <= j < |r| ==> r[j].isString
    ensures forall p :: p in props && p.isString ==> p in r
    ensures forall p :: p in r ==> p in props
  {
    if |props| == 0 then []
    else (if props[0].isString then [props[0]] else []) + StringPropertiesOf(props[1..])
  }

  /** Filtering keeps the order: the string properties of a concatenation are those of its parts. */
  lemma {:induction false} StringPropertiesOfAppend(a: seq<Property>, b: seq<Property>)
    ensures StringPropertiesOf(a + b) == StringPropertiesOf(a) + StringPropertiesOf(b)
    decreases |a|
  {
    if |a| == 0 {
      assert a + b == b;
    } else {
      assert (a + b)[0] == a[0];
      assert (a + b)[1..] == a[1..] + b;
      StringPropertiesOfAppend(a[1..], b);
    }
  }

  /** `props[i]`, which is `p`, is the first language property among `props`. */
  predicate IsFirstLanguageProperty(names: seq<string>, props: seq<Property>, i: nat, p: Property) {
    && i < |props| && props[i] == p && IsLanguageProperty(names, p)
    && forall j :: 0 <= j < i ==> !IsLanguageProperty(names, props[j])
  }

  /** The first public string property of `dto` whose lower-cased name is a configured name. */
  function FindLanguageProperty(names: seq<string>, dto: Arg): (r: Option<Property>)
    ensures r.Some? ==> IsLanguageProperty(names, r.value) && dto.ObjArg? && r.value in dto.properties
    ensures r.None? ==> dto.ObjArg? ==> forall p :: p in dto.properties ==> !IsLanguageProperty(names, p)
    // the match found is the first one in reflection order
    ensures r.Some? ==> exists i :: IsFirstLanguageProperty(names, PublicStringProperties(dto), i, r.value)
  {
    var props := PublicStringProperties(dto);
    match FirstIndex(props, (p: Property) => IsLanguageProperty(names, p))
    case None => None
    case Some(i) =>
      assert IsFirstLanguageProperty(names, props, i, props[i]);
      Some(props[i])
  }

  /** Of several language properties of an object, the first in reflection order is used, and the
      object's language is that property's value. */
  lemma {:induction false} FirstLanguagePropertyWins(names: seq<string>, props: seq<Property>, i: nat)
    requires i < |props| && IsLanguageProperty(names, props[i])
    requires forall j :: 0 <= j < i ==> !IsLanguageProperty(names, props[j])
    ensures FindLanguageProperty(names, ObjArg(props)) == Some(props[i])
    ensures ResolveLanguageFromDto(names, ObjArg(props)) == props[i].value
  {
    var before := StringPropertiesOf(props[..i]);
    assert props == props[..i] + ([props[i]] + props[i + 1..]);
    StringPropertiesOfAppend(props[..i], [props[i]] + props[i + 1..]);
    assert ([props[i]] + props[i + 1..])[1..] == props[i + 1..];
    var all := before + ([props[i]] + StringPropertiesOf(props[i + 1..]));
    assert StringPropertiesOf(props) == all;
    forall k | 0 <= k < |before|
      ensures !IsLanguageProperty(names, all[k])
    {
      assert all[k] == before[k];
      assert before[k] in props[..i];
    }
    assert all[|before|] == props[i];
    FirstIndexIsUnique(all, (p: Property) => IsLanguageProperty(names, p), |before|);
  }

  /** The language found in one argument: null for a null argument or one without a language
      property, otherwise the property's value as text (possibly null). */
  function ResolveLanguageFromDto(names: seq<string>, dto: Arg): (r: Option<string>)
    ensures r.Some? ==> dto.ObjArg? && exists p :: p in dto.properties && IsLanguageProperty(names, p) && p.value == r
    // a language property found is read even when its value is null
    ensures FindLanguageProperty(names, dto).Some? ==> r == FindLanguageProperty(names, dto).value.value
    ensures FindLanguageProperty(names, dto).None? ==> r.None?
  {
    if dto.NullArg? then None
    else match FindLanguageProperty(names, dto)
      case None => None
      case Some(p) => p.value
  }

  predicate HasLanguage(names: seq<string>, dto: Arg) {
    !IsNullOrWhiteSpace(ResolveLanguageFromDto(names, dto))
  }

  /** The language each argument value yields, in order. */
  function DtoLanguages(names: seq<string>, values: seq<Arg>): (r: seq<Option<string>>)
    ensures |r| == |values|
    ensures forall i :: 0 <= i < |values| ==> r[i] == ResolveLanguageFromDto(names, values[i])
  {
    seq(|values|, i requires 0 <= i < |values| => ResolveLanguageFromDto(names, values[i]))
  }

  /** The first non-white-space language over the argument values, in order. */
  function ResolveLanguageFromDtos(names: seq<string>, values: seq<Arg>): (r: Option<string>)
    ensures r.None? || !IsNullOrWhiteSpace(r)
    ensures r.None? <==> forall i :: 0 <= i < |values| ==> !HasLanguage(names, values[i])
    ensures r.Some? ==> exists i :: 0 <= i < |values| && ResolveLanguageFromDto(names, values[i]) == r
  {
    var languages := DtoLanguages(names, values);
    match FirstIndex(languages, (l: Option<string>) => !IsNullOrWhiteSpace(l))
    case None => None
    case Some(i) => languages[i]
  }

  /** The DTO scan yields the language of the first argument that has one: arguments before it,
      null ones included, are passed over. */
  lemma DtoScanTakesFirstArgumentWithLanguage(names: seq<string>, values: seq<Arg>, i: nat)
    requires i < |values| && HasLanguage(names, values[i])
    requires forall j :: 0 <= j < i ==> !HasLanguage(names, values[j])
    ensures ResolveLanguageFromDtos(names, values) == ResolveLanguageFromDto(names, values[i])
  {
    FirstIndexIsUnique(DtoLanguages(names, values), (l: Option<string>) => !IsNullOrWhiteSpace(l), i);
  }

  /** `language` is the value of a language property of some argument object. */
  predicate FoundInArguments(names: seq<string>, args: seq<ActionArgument>, language: Option<string>) {
    exists i, p ::
      && 0 <= i < |args|
      && args[i].value.ObjArg?
      && p in args[i].value.properties
      && IsLanguageProperty(names, p)
      && p.value == language
  }

  lemma DtoScanIsFoundInArguments(names: seq<string>, args: seq<ActionArgument>)
    ensures ResolveLanguageFromDtos(names, Values(args)).Some? ==>
      FoundInArguments(names, args, ResolveLanguageFromDtos(names, Values(args)))
  {
    var r := ResolveLanguageFromDtos(names, Values(args));
    if r.Some? {
      var i :| 0 <= i < |args| && ResolveLanguageFromDto(names, Values(args)[i]) == r;
      var dto := args[i].value;
      assert Values(args)[i] == dto;
      assert ResolveLanguageFromDto(names, dto) == r;
      var p :| p in dto.properties && IsLanguageProperty(names, p) && p.value == r;
      assert 0 <= i < |args| && args[i].value.ObjArg? && p in args[i].value.properties;
    }
  }

  /** The language the filter installs for these arguments, or null to leave the culture alone. */
  function ResolveLanguage(attr: LanguageAttribute, args: seq<ActionArgument>): (r: Option<string>)
    // never a white-space string
    ensures r.None? || !IsNullOrWhiteSpace(r)
    // a usable by-name value wins and the DTO scan is not used
    ensures !IsNullOrWhiteSpace(ResolveLanguageByParamName(attr.languageParamNames, args)) ==>
      r == ResolveLanguageByParamName(attr.languageParamNames, args)
    // without the DTO option, no usable by-name value means no language
    ensures !attr.useDtoLanguageParameter && IsNullOrWhiteSpace(ResolveLanguageByParamName(attr.languageParamNames, args)) ==>
      r.None?
    // with the DTO option, no usable by-name value hands over to the scan of the argument values
    ensures attr.useDtoLanguageParameter && IsNullOrWhiteSpace(ResolveLanguageByParamName(attr.languageParamNames, args)) ==>
      r == ResolveLanguageFromDtos(attr.languageParamNames, Values(args))
    // where the result comes from: a string argument under a configured name, or a language property of an argument
    ensures r.Some? ==>
      || (exists n :: n in attr.languageParamNames && Lookup(args, n) == Some(StrArg(r.value)))
      || (attr.useDtoLanguageParameter && FoundInArguments(attr.languageParamNames, args, r))
  {
    var names := attr.languageParamNames;
    var language := ResolveLanguageByParamName(names, args);
    if !IsNullOrWhiteSpace(language) then
      assert exists n :: n in names && Lookup(args, n) == Some(StrArg(language.value)) by {
        var i :| 0 <= i < |names| && Lookup(args, names[i]) == Some(StrArg(language.value));
        assert names[i] in names;
      }
      language
    else if attr.useDtoLanguageParameter then
      var r := ResolveLanguageFromDtos(names, Values(args));
      DtoScanIsFoundInArguments(names, args);
      r
    else None
  }

  /** With the default names, a DTO property spelled "languageId" in any letter case is never
      picked up: its lower-cased name "languageid" is not among the names, which hold "languageId". */
  lemma DefaultNamesMissLanguageIdProperty(p: Property)
    requires ToLower(p.name) == "languageid"
    ensures !IsLanguageProperty(DefaultLanguageParamNames, p)
  {
    assert "languageid" != "languageId" by { assert "languageid"[8] != "languageId"[8]; }
    assert "languageid" != "language" && "languageid" != "epslanguage";
  }

  /** With the DTO option and no argument under a configured name, the installed language is
      that of the first argument carrying one. */
  lemma FallsBackToFirstArgumentWithLanguage(attr: LanguageAttribute, args: seq<ActionArgument>, i: nat)
    requires attr.useDtoLanguageParameter
    requires forall j :: 0 <= j < |attr.languageParamNames| ==> attr.languageParamNames[j] !in Names(args)
    requires i < |args| && HasLanguage(attr.languageParamNames, args[i].value)
    requires forall j :: 0 <= j < i ==> !HasLanguage(attr.languageParamNames, args[j].value)
    ensures ResolveLanguage(attr, args) == ResolveLanguageFromDto(attr.languageParamNames, args[i].value)
  {
    ByParamNameWithoutPresentName(attr.languageParamNames, args);
    DtoScanTakesFirstArgumentWithLanguage(attr.languageParamNames, Values(args), i);
  }

  /** With the default names, a non-blank string argument named "language" is installed,
      whatever the other arguments hold and whether or not the DTO option is on. */
  lemma DefaultAttributeReadsLanguageArgument(useDtoLanguageParameter: bool, s: string, rest: seq<ActionArgument>)
    requires !IsNullOrWhiteSpace(Some(s))
    ensures ResolveLanguage(NewLanguageAttribute(useDtoLanguageParameter), [ActionArgument("language", StrArg(s))] + rest)
      == Some(s)
  {
    var args := [ActionArgument("language", StrArg(s))] + rest;
    assert Names(args)[0] == "language";
    assert DefaultLanguageParamNames[0] == "language";
    ByParamNameConsultsFirstPresentNameOnly(DefaultLanguageParamNames, args, 0);
  }
}

=== FILE: linq.dfy ===
/** The two LINQ queries the filters use over ordered collections: `FirstOrDefault` with a
    predicate (as the position of the first match) and `Any`. */
module Linq {
  import opened Optional

  /** The position of the first element satisfying `p`, or `None` when there is none. */
  function FirstIndex<T>(s: seq<T>, p: T -> bool): (r: Option<nat>)
    ensures r.Some? ==> r.value < |s| && p(s[r.value])
    ensures r.Some? ==> forall j :: 0 <= j < r.value ==> !p(s[j])
    ensures r.None? ==> forall j :: 0 <= j < |s| ==> !p(s[j])
  {
    if |s| == 0 then None
    else if p(s[0]) then Some(0)
    else match FirstIndex(s[1..], p)
      case None => None
      case Some(i) => Some(i + 1)
  }

  /** A position whose element satisfies `p` and has no earlier match is the one `FirstIndex` finds. */
  lemma FirstIndexIsUnique<T>(s: seq<T>, p: T -> bool, i: nat)
    requires i < |s| && p(s[i])
    requires forall j :: 0 <= j < i ==> !p(s[j])
    ensures FirstIndex(s, p) == Some(i)
  {
  }

  /** `Any`: some element satisfies `p`. */
  function Any<T>(s: seq<T>, p: T -> bool): (r: bool)
    ensures r <==> exists i :: 0 <= i < |s| && p(s[i])
  {
    if |s| == 0 then false
    else p(s[0]) || Any(s[1..], p)
  }
}

=== FILE: optional.dfy ===
/** Null-able references and thrown-or-returned outcomes of the C# code, as values. */
module Optional {

  /** A C# reference that may be null (`None`), or a present value. */
  datatype Option<+T> = None | Some(value: T)

  /** A call that either returns a value or throws the exception described by `error`. */
  datatype Result<+T, +E> = Success(value: T) | Failure(error: E)
}

=== FILE: output_cache.dfy ===
/**
  The Web API output-cache filter: a response cache for GET actions. While the attribute has
  dependency keys, entries are inserted with an absolute-timeout policy over them; by default
  the one dependency is the content-version key, so that a content change evicts them. With
  null or empty keys no policy is passed to the cache.

  The process-wide object cache is a finite map from key to entry; the ambient facts the
  filter reads from `HttpContext` and the service locator (debug mode, whether the user is
  authenticated, the name of the content-version key) are an `Ambient` value. Each hook
  returns the cache operations it performed, in order, so that "reads nothing", "writes at
  most once" and "reads the version before inserting" can be stated.
 */
module OutputCache {
  import opened Optional
  import opened Text
  import opened Http

  /** The dependency name that stands for the live content-version key. */
  const Placeholder: string := "default"

  /** The namespace prefix of every key this filter writes. */
  const CacheKeyPrefix: string := "Solita:EpiserverWebApiOutputCacheAttribute#"

  /** The attribute instance: its constructor argument and its three settable properties.
      `cacheDependencyKeys` is rewritten by the filter itself (placeholder resolution). */
  datatype OutputCacheAttribute = OutputCacheAttribute(
    durationSeconds: int,
    disableForAuthenticated: bool,
    enableInDebug: bool,
    cacheDependencyKeys: Option<seq<string>>)

  /** `new EpiserverWebApiOutputCacheAttribute(durationSeconds)` with its property defaults. */
  function NewOutputCacheAttribute(durationSeconds: int): (r: OutputCacheAttribute)
    ensures r.durationSeconds == durationSeconds
    // the one dependency is the placeholder for the content-version key
    ensures r.cacheDependencyKeys == Some([Placeholder])
    // by default authenticated users are served from the cache too, and debug mode switches
    // caching off: an anonymous or authenticated GET is cached iff the duration is positive
    // and debug mode is off
    ensures forall env: Ambient :: IsCacheable(r, env, Get) <==> durationSeconds > 0 && !env.debuggingEnabled
  {
    OutputCacheAttribute(durationSeconds, false, false, Some([Placeholder]))
  }

  /** What the filter reads from its surroundings on each call. */
  datatype Ambient = Ambient(
    debuggingEnabled: bool,   // HttpContext.Current.IsDebuggingEnabled
    authenticated: bool,      // HttpContext.Current.User.Identity.IsAuthenticated
    versionKey: string)       // IContentCacheKeyCreator.VersionKey

  /** The stored response: media type, charset and body text. */
  datatype CacheValue = CacheValue(contentType: string, charset: Option<string>, result: string)

  /** An object in the shared cache: one of ours, or an object of another type under the same key. */
  datatype CacheItem = OutputValue(value: CacheValue) | ForeignObject

  datatype TimeoutType = Absolute

  /** `CacheEvictionPolicy(TimeSpan.FromSeconds(seconds), timeoutType, dependencyKeys)`. */
  datatype EvictionPolicy = EvictionPolicy(seconds: int, timeoutType: TimeoutType, dependencyKeys: seq<string>)

  /** An inserted object with the policy it was inserted with (null: no policy). */
  datatype CacheEntry = CacheEntry(item: CacheItem, policy: Option<EvictionPolicy>)

  type Cache = map<string, CacheEntry>

  /** The state one request sees: the shared attribute instance and the shared cache. */
  datatype FilterState = FilterState(attribute: OutputCacheAttribute, cache: Cache)

  /** An observable interaction with the cache or the content-version provider. */
  datatype Effect =
    | CacheGet(key: string)
    | ReadContentVersion
    | CacheInsert(key: string, value: CacheValue, policy: Option<EvictionPolicy>)

  /** The keys read from the cache, in the order the reads happen. */
  function Reads(effects: seq<Effect>): (keys: seq<string>)
    ensures |keys| <= |effects|
    ensures |keys| == 0 <==> forall i :: 0 <= i < |effects| ==> !effects[i].CacheGet?
  {
    if |effects| == 0 then []
    else (if effects[0].CacheGet? then [effects[0].key] else []) + Reads(effects[1..])
  }

  lemma {:induction false} ReadsAppend(a: seq<Effect>, b: seq<Effect>)
    ensures Reads(a + b) == Reads(a) + Reads(b)
    decreases |a|
  {
    if |a| == 0 {
      assert a + b == b;
    } else {
      assert (a + b)[0] == a[0];
      assert (a + b)[1..] == a[1..] + b;
      ReadsAppend(a[1..], b);
    }
  }

  /** The `NullReferenceException` the after-hook raises when the response has no content
      or its content has no Content-Type header. */
  datatype FilterFault = NullResponseContent | NullContentType

  // ---------------------------------------------------------------------------
  // Cacheability

  /** Whether this request takes part in caching at all. */
  function IsCacheable(attr: OutputCacheAttribute, env: Ambient, verb: HttpMethod): (r: bool)
    ensures r <==>
      && attr.durationSeconds > 0
      && verb == Get
      && (!env.debuggingEnabled || attr.enableInDebug)
      && (!env.authenticated || !attr.disableForAuthenticated)
  {
    if !attr.enableInDebug && env.debuggingEnabled then false
    else if attr.disableForAuthenticated && env.authenticated then false
    else attr.durationSeconds > 0 && verb == Get
  }

  // ---------------------------------------------------------------------------
  // Cache key

  /** The cache key of a request URI: the fixed prefix followed by the URI, unchanged. */
  function CreateCacheKey(absoluteUri: string): (key: string)
    ensures |key| == |CacheKeyPrefix| + |absoluteUri|
    ensures key[..|CacheKeyPrefix|] == CacheKeyPrefix
    ensures key[|CacheKeyPrefix|..] == absoluteUri
  {
    CacheKeyPrefix + absoluteUri
  }

  /** The inverse of `CreateCacheKey`: the URI a key was made from, if it is one of ours. */
  function UriOfCacheKey(key: string): (r: Option<string>)
    ensures r.Some? <==> |CacheKeyPrefix| <= |key| && key[..|CacheKeyPrefix|] == CacheKeyPrefix
    ensures r.Some? ==> CacheKeyPrefix + r.value == key
  {
    if |CacheKeyPrefix| <= |key| && key[..|CacheKeyPrefix|] == CacheKeyPrefix
    then
      assert key == key[..|CacheKeyPrefix|] + key[|CacheKeyPrefix|..];
      Some(key[|CacheKeyPrefix|..])
    else None
  }

  /** Every URI is recovered from its key. */
  lemma CacheKeyRoundTrip(absoluteUri: string)
    ensures UriOfCacheKey(CreateCacheKey(absoluteUri)) == Some(absoluteUri)
  {
  }

  /** Distinct absolute URIs never share a key, and equal ones always do. */
  lemma CacheKeyInjective(u1: string, u2: string)
    ensures CreateCacheKey(u1) == CreateCacheKey(u2) <==> u1 == u2
  {
    if CreateCacheKey(u1) == CreateCacheKey(u2) {
      CacheKeyRoundTrip(u1);
      CacheKeyRoundTrip(u2);
    }
  }

  // ---------------------------------------------------------------------------
  // Eviction policy

  /** Resolution of the placeholder: when some key is exactly the placeholder, every key has
      each occurrence of the placeholder text replaced by the version key; otherwise the keys
      are returned as they are. */
  function SubstitutePlaceholder(keys: seq<string>, versionKey: string): (r: seq<string>)
    ensures |r| == |keys|
    ensures Placeholder !in keys ==> r == keys
    ensures Placeholder in keys ==> versionKey in r
    ensures Placeholder in keys ==>
      forall i :: 0 <= i < |keys| ==> r[i] == ReplaceAll(keys[i], Placeholder, versionKey)
  {
    if Placeholder in keys then
      var r := seq(|keys|, i requires 0 <= i < |keys| => ReplaceAll(keys[i], Placeholder, versionKey));
      assert versionKey in r by {
        var i :| 0 <= i < |keys| && keys[i] == Placeholder;
        ReplaceAllOfPattern(Placeholder, versionKey);
        assert r[i] == versionKey;
      }
      r
    else keys
  }

  /** With the placeholder itself as version key, the substring replace changes nothing, so
      resolution leaves every key list as it is. */
  lemma PlaceholderAsVersionKeyChangesNothing(keys: seq<string>)
    ensures SubstitutePlaceholder(keys, Placeholder) == keys
  {
    forall i | 0 <= i < |keys| ensures ReplaceAll(keys[i], Placeholder, Placeholder) == keys[i] {
      ReplaceAllWithItself(keys[i], Placeholder);
    }
  }

  /** A resolved key list contains the placeholder only if resolution has more to do. A second
      resolution leaves the list unchanged whenever the version key does not occur inside the
      placeholder text itself (for instance any version key longer than seven characters). */
  lemma SubstitutePlaceholderIdempotent(keys: seq<string>, versionKey: string)
    requires !Contains(Placeholder, versionKey)
    ensures Placeholder !in SubstitutePlaceholder(keys, versionKey)
            || Placeholder !in keys
    ensures SubstitutePlaceholder(SubstitutePlaceholder(keys, versionKey), versionKey)
            == SubstitutePlaceholder(keys, versionKey)
  {
    if Placeholder in keys {
      var r := SubstitutePlaceholder(keys, versionKey);
      forall i | 0 <= i < |r|
        ensures r[i] != Placeholder
      {
        if !Contains(keys[i], Placeholder) {
          ContainsSelf(Placeholder);
        }
      }
    }
  }

  /** Any version key longer than the placeholder satisfies the idempotence condition. */
  lemma LongVersionKeyIsNotInPlaceholder(versionKey: string)
    requires |versionKey| > |Placeholder|
    ensures !Contains(Placeholder, versionKey)
  {
    if Contains(Placeholder, versionKey) {
      ContainsIsNoLonger(Placeholder, versionKey);
    }
  }

  /** Keeping the version key free of "default" is not enough for idempotence: with the
      version key "def", the key "defaultault" turns into "default" on the first resolution,
      which a second resolution replaces again. */
  lemma SubstitutePlaceholderNotIdempotentForShortKey()
    ensures !Contains("def", Placeholder)
    ensures SubstitutePlaceholder(["default", "defaultault"], "def") == ["def", "default"]
    ensures SubstitutePlaceholder(["def", "default"], "def") == ["def", "def"]
  {
    var once := SubstitutePlaceholder(["default", "defaultault"], "def");
    assert "defaultault"[..7] == Placeholder;
    assert "defaultault"[7..] == "ault";
    assert !Contains("ault", Placeholder);
    ReplaceAllOfPattern(Placeholder, "def");
    assert once[0] == "def";
    assert once[1] == "def" + "ault" == "default";
    assert once == ["def", "default"];
    var twice := SubstitutePlaceholder(["def", "default"], "def");
    assert twice == ["def", "def"];
  }

  /** The outcome of building the eviction policy: the (possibly rewritten) dependency keys to
      keep on the attribute, the policy (null when there are no dependency keys), and whether
      the content version was read to make sure the version key exists in the cache. */
  datatype PolicyResult = PolicyResult(
    dependencyKeys: Option<seq<string>>,
    policy: Option<EvictionPolicy>,
    versionRead: bool)

  /** True when dependency-based invalidation is switched off (keys null or empty). */
  predicate NoDependencies(keys: Option<seq<string>>) {
    keys.None? || |keys.value| == 0
  }

  /** Builds the eviction policy for an insert, resolving the placeholder first. */
  function CreateCacheEvictionPolicy(durationSeconds: int, keys: Option<seq<string>>, versionKey: string)
    : (r: PolicyResult)
    ensures r.policy.None? <==> NoDependencies(keys)
    ensures NoDependencies(keys) ==> r.dependencyKeys == keys && !r.versionRead
    ensures r.policy.Some? ==>
      && r.dependencyKeys == Some(r.policy.value.dependencyKeys)
      && r.policy.value.seconds == durationSeconds
      && r.policy.value.timeoutType == Absolute
      && r.policy.value.dependencyKeys == SubstitutePlaceholder(keys.value, versionKey)
    ensures r.versionRead <==> r.policy.Some? && versionKey in r.policy.value.dependencyKeys
    ensures keys.Some? && Placeholder in keys.value ==> r.versionRead
    ensures keys.Some? && Placeholder !in keys.value ==> r.dependencyKeys == keys
  {
    if NoDependencies(keys) then PolicyResult(keys, None, false)
    else
      var resolved := SubstitutePlaceholder(keys.value, versionKey);
      PolicyResult(Some(resolved), Some(EvictionPolicy(durationSeconds, Absolute, resolved)), versionKey in resolved)
  }

  /** With the attribute's defaults the single placeholder resolves to exactly the version key:
      the policy depends on the content version alone, and the version is read. */
  lemma DefaultDependencyIsTheVersionKey(durationSeconds: int, versionKey: string)
    ensures CreateCacheEvictionPolicy(durationSeconds, NewOutputCacheAttribute(durationSeconds).cacheDependencyKeys, versionKey)
      == PolicyResult(Some([versionKey]), Some(EvictionPolicy(durationSeconds, Absolute, [versionKey])), true)
  {
    ReplaceAllOfPattern(Placeholder, versionKey);
    assert SubstitutePlaceholder([Placeholder], versionKey) == [versionKey];
  }

  // ---------------------------------------------------------------------------
  // Stored values and synthesized responses

  /** Captures the action's response into a `CacheValue`: its media type, charset and body
      text. A response without content, or whose content has no Content-Type header, makes the
      after-hook dereference null and throw `NullReferenceException`; the fault names which
      of the two was missing. */
  function CaptureValue(resp: HttpResponse): (r: Result<CacheValue, FilterFault>)
    ensures r.Success? <==> resp.content.Some? && resp.content.value.contentType.Some?
    ensures r.Failure? ==> (r.error == NullResponseContent <==> resp.content.None?)
    ensures r.Success? ==>
      && resp.content.value.contentType == Some(MediaTypeHeader(r.value.contentType, r.value.charset))
      && resp.content.value.body == r.value.result
  {
    match resp.content
    case None => Failure(NullResponseContent)
    case Some(content) =>
      match content.contentType
      case None => Failure(NullContentType)
      case Some(header) => Success(CacheValue(header.mediaType, header.charSet, content.body))
  }

  /** The response served on a hit: status 200, the stored text written as UTF-8 (what
      `new StringContent(text)` does), then labelled with the stored media type and charset. */
  function HitResponse(v: CacheValue): (r: HttpResponse)
    ensures r.status == StatusOk
    ensures r.content.Some?
    ensures r.content.value.contentType == Some(MediaTypeHeader(v.contentType, v.charset))
    ensures r.content.value.body == v.result && r.content.value.writtenIn == Utf8Charset
    // the label matches the bytes only for an absent or UTF-8 charset
    ensures LabelledAsWritten(r.content.value) <==> v.charset.None? || SameCharset(v.charset.value, Utf8Charset)
    // and then reading the hit back gives exactly the stored value
    ensures LabelledAsWritten(r.content.value) ==> CaptureValue(r) == Success(v)
  {
    HttpResponse(StatusOk, Some(HttpContent(Some(MediaTypeHeader(v.contentType, v.charset)), v.result, Utf8Charset)))
  }

  /** A stored response is served back with the same Content-Type header and the same body text,
      always with status 200, and with its text written as UTF-8; so a reader gets the same text
      back exactly when the stored charset is absent or UTF-8. */
  lemma CapturedResponseIsServedBack(resp: HttpResponse)
    requires CaptureValue(resp).Success?
    ensures var hit := HitResponse(CaptureValue(resp).value);
      && hit.status == StatusOk
      && hit.content.value.contentType == resp.content.value.contentType
      && hit.content.value.body == resp.content.value.body
      && (LabelledAsWritten(hit.content.value) <==> SameCharset(ReadCharset(resp.content.value), Utf8Charset))
  {
    var hit := HitResponse(CaptureValue(resp).value);
    assert ReadCharset(hit.content.value) == ReadCharset(resp.content.value);
  }

  /** Two storable responses are stored as the same value iff they carry the same Content-Type
      header and the same body text. */
  lemma CaptureValueDependsOnlyOnContent(a: HttpResponse, b: HttpResponse)
    requires CaptureValue(a).Success? && CaptureValue(b).Success?
    ensures CaptureValue(a) == CaptureValue(b) <==>
      a.content.value.contentType == b.content.value.contentType && a.content.value.body == b.content.value.body
  {
  }

  // ---------------------------------------------------------------------------
  // The two hooks

  /** What the before-hook did: the response it set (null: let the action run) and its effects. */
  datatype BeforeResult = BeforeResult(response: Option<HttpResponse>, effects: seq<Effect>)

  /** A stored value of ours under `key`, if any (`cache.Get(key) as CacheValue`). */
  function CachedValue(cache: Cache, key: string): (r: Option<CacheValue>)
    ensures r.Some? <==> key in cache && cache[key].item.OutputValue?
    ensures r.Some? ==> cache[key].item == OutputValue(r.value)
  {
    if key in cache && cache[key].item.OutputValue? then Some(cache[key].item.value) else None
  }

  /** `OnActionExecuting`: serve a hit from the cache, or let the action run. */
  function OnActionExecuting(st: FilterState, env: Ambient, req: Request): (r: BeforeResult)
    ensures !IsCacheable(st.attribute, env, req.verb) ==> r.response.None? && r.effects == []
    ensures IsCacheable(st.attribute, env, req.verb) ==> r.effects == [CacheGet(CreateCacheKey(req.absoluteUri))]
    ensures r.response.Some? <==>
      && IsCacheable(st.attribute, env, req.verb)
      && CachedValue(st.cache, CreateCacheKey(req.absoluteUri)).Some?
    ensures r.response.Some? ==> r.response.value == HitResponse(CachedValue(st.cache, CreateCacheKey(req.absoluteUri)).value)
  {
    if !IsCacheable(st.attribute, env, req.verb) then BeforeResult(None, [])
    else
      var key := CreateCacheKey(req.absoluteUri);
      match CachedValue(st.cache, key)
      case None => BeforeResult(None, [CacheGet(key)])
      case Some(v) => BeforeResult(Some(HitResponse(v)), [CacheGet(key)])
  }

  /** How the action finished: it threw an exception (described by its text) or returned a response. */
  datatype ActionOutcome = Threw(exception: string) | Returned(response: HttpResponse)

  /** What the after-hook did: the new state, its effects, and the exception it raised, if any. */
  datatype AfterResult = AfterResult(state: FilterState, effects: seq<Effect>, fault: Option<FilterFault>)

  /** The after-hook writes the cache exactly in this situation. */
  predicate WritesCache(st: FilterState, env: Ambient, req: Request, outcome: ActionOutcome) {
    && IsCacheable(st.attribute, env, req.verb)
    && outcome.Returned?
    && CreateCacheKey(req.absoluteUri) !in st.cache
    && CaptureValue(outcome.response).Success?
  }

  /** `OnActionExecuted`: after a successful cacheable action, store its response unless the
      key is already taken. */
  function OnActionExecuted(st: FilterState, env: Ambient, req: Request, outcome: ActionOutcome): (r: AfterResult)
    // nothing happens for a non-cacheable request or an action that threw
    ensures !IsCacheable(st.attribute, env, req.verb) || outcome.Threw? ==> r == AfterResult(st, [], None)
    // otherwise the first thing done is one read of the key, and no other read follows
    ensures IsCacheable(st.attribute, env, req.verb) && outcome.Returned? ==>
      |r.effects| > 0 && r.effects[0] == CacheGet(CreateCacheKey(req.absoluteUri))
    ensures Reads(r.effects) ==
      if IsCacheable(st.attribute, env, req.verb) && outcome.Returned? then [CreateCacheKey(req.absoluteUri)] else []
    // between the read and the insert only the content version may be read
    ensures forall i :: 0 < i < |r.effects| - 1 ==> r.effects[i] == ReadContentVersion
    // so the content version is read at most once: at most a read, a version read and an insert
    ensures |r.effects| <= 3
    ensures ReadContentVersion in r.effects ==> |r.effects| == 3
    // an existing entry is never replaced: the first write wins
    ensures CreateCacheKey(req.absoluteUri) in st.cache ==> r.state == st && r.fault.None?
    // a fault is raised exactly when a response to be stored has no content or content type
    ensures r.fault.Some? <==>
      && IsCacheable(st.attribute, env, req.verb)
      && outcome.Returned?
      && CreateCacheKey(req.absoluteUri) !in st.cache
      && CaptureValue(outcome.response).Failure?
    ensures r.fault.Some? ==> r.state == st && r.fault.value == CaptureValue(outcome.response).error
    // the write: exactly one insert, as the last effect, of the captured value under the key
    ensures !WritesCache(st, env, req, outcome) ==> r.state == st
    ensures forall i :: 0 <= i < |r.effects| - 1 ==> !r.effects[i].CacheInsert?
    ensures WritesCache(st, env, req, outcome) <==> |r.effects| > 0 && r.effects[|r.effects| - 1].CacheInsert?
    ensures WritesCache(st, env, req, outcome) ==>
      var key := CreateCacheKey(req.absoluteUri);
      && r.state.cache.Keys == st.cache.Keys + {key}
      && (forall k :: k in st.cache ==> r.state.cache[k] == st.cache[k])
      && r.state.cache[key].item == OutputValue(CaptureValue(outcome.response).value)
      && (r.state.cache[key].policy.None? <==> NoDependencies(st.attribute.cacheDependencyKeys))
      && r.effects[|r.effects| - 1] == CacheInsert(key, CaptureValue(outcome.response).value, r.state.cache[key].policy)
    // the inserted policy is the one the policy builder makes, and the attribute keeps its resolved keys
    ensures WritesCache(st, env, req, outcome) ==>
      var p := CreateCacheEvictionPolicy(st.attribute.durationSeconds, st.attribute.cacheDependencyKeys, env.versionKey);
      && r.state.cache[CreateCacheKey(req.absoluteUri)].policy == p.policy
      && r.state.attribute.cacheDependencyKeys == p.dependencyKeys
    // the content version is read, before the insert, exactly when the policy depends on the version key
    ensures ReadContentVersion in r.effects <==>
      && WritesCache(st, env, req, outcome)
      && var p := r.state.cache[CreateCacheKey(req.absoluteUri)].policy;
         p.Some? && env.versionKey in p.value.dependencyKeys
    // the attribute changes only in its dependency keys
    ensures r.state.attribute.(cacheDependencyKeys := st.attribute.cacheDependencyKeys) == st.attribute
  {
    if !IsCacheable(st.attribute, env, req.verb) || outcome.Threw? then AfterResult(st, [], None)
    else
      var key := CreateCacheKey(req.absoluteUri);
      if key in st.cache then AfterResult(st, [CacheGet(key)], None)
      else
        match CaptureValue(outcome.response)
        case Failure(fault) => AfterResult(st, [CacheGet(key)], Some(fault))
        case Success(v) =>
          var p := CreateCacheEvictionPolicy(
            st.attribute.durationSeconds, st.attribute.cacheDependencyKeys, env.versionKey);
          var attribute := st.attribute.(cacheDependencyKeys := p.dependencyKeys);
          var versionRead := if p.versionRead then [ReadContentVersion] else [];
          ReadsAppend([CacheGet(key)] + versionRead, [CacheInsert(key, v, p.policy)]);
          ReadsAppend([CacheGet(key)], versionRead);
          AfterResult(
            FilterState(attribute, st.cache[key := CacheEntry(OutputValue(v), p.policy)]),
            [CacheGet(key)] + versionRead + [CacheInsert(key, v, p.policy)],
            None)
  }

  // ---------------------------------------------------------------------------
  // Properties across calls

  /** A request that is not cacheable leaves the cache alone in both hooks and gets no response
      from the filter, whatever the action did. */
  lemma NonCacheableRequestIsUntouched(st: FilterState, env: Ambient, req: Request, outcome: ActionOutcome)
    requires !IsCacheable(st.attribute, env, req.verb)
    ensures OnActionExecuting(st, env, req) == BeforeResult(None, [])
    ensures OnActionExecuted(st, env, req, outcome) == AfterResult(st, [], None)
  {
  }

  /** Non-GET requests, zero or negative durations, debug mode without `EnableInDebug`, and
      authenticated users under `DisableForAuthenticated` are each enough to switch caching off;
      an anonymous GET under the same settings is cached. */
  lemma CacheabilityCases(attr: OutputCacheAttribute, env: Ambient, verb: HttpMethod)
    ensures verb != Get ==> !IsCacheable(attr, env, verb)
    ensures attr.durationSeconds <= 0 ==> !IsCacheable(attr, env, verb)
    ensures env.debuggingEnabled && !attr.enableInDebug ==> !IsCacheable(attr, env, verb)
    ensures env.authenticated && attr.disableForAuthenticated ==> !IsCacheable(attr, env, verb)
    ensures attr.durationSeconds > 0 && attr.disableForAuthenticated && !env.debuggingEnabled ==>
      IsCacheable(attr, env.(authenticated := false), Get)
  {
  }

  /** After one resolution the attribute keeps resolved keys: later inserts use the same
      dependency keys and no longer rewrite them, for a version key longer than "default". */
  lemma DependencyKeysSettleAfterFirstInsert(
    st: FilterState, env: Ambient, req1: Request, out1: ActionOutcome, req2: Request, out2: ActionOutcome)
    requires |env.versionKey| > |Placeholder|
    requires WritesCache(st, env, req1, out1)
    ensures var st1 := OnActionExecuted(st, env, req1, out1).state;
      OnActionExecuted(st1, env, req2, out2).state.attribute == st1.attribute
  {
    var keys := st.attribute.cacheDependencyKeys;
    LongVersionKeyIsNotInPlaceholder(env.versionKey);
    if keys.Some? && |keys.value| > 0 {
      SubstitutePlaceholderIdempotent(keys.value, env.versionKey);
    }
  }
}

=== FILE: text.dfy ===
/**
  The few .NET string operations the filters rely on: `string.IsNullOrWhiteSpace`,
  `String.ToLower`, and the ordinal substring search and `String.Replace` used when the
  output cache resolves its dependency-key placeholder.
 */
module Text {
  import opened Optional

  /** `Char.IsWhiteSpace`: the Unicode space separators, line and paragraph separators,
      and the control characters U+0009..U+000D and U+0085. */
  predicate IsWhiteSpace(c: char) {
    || c == ' '
    || ('\t' <= c <= '\r')
    || c == '\U{85}'
    || c == '\U{A0}'
    || c == '\U{1680}'
    || ('\U{2000}' <= c <= '\U{200A}')
    || c == '\U{2028}'
    || c == '\U{2029}'
    || c == '\U{202F}'
    || c == '\U{205F}'
    || c == '\U{3000}'
  }

  /** `string.IsNullOrWhiteSpace`: null, empty, or made only of white-space characters. */
  predicate IsNullOrWhiteSpace(s: Option<string>) {
    s.None? || forall i :: 0 <= i < |s.value| ==> IsWhiteSpace(s.value[i])
  }

  /** What is left after dropping the leading white space (`String.TrimStart()`). */
  function TrimStart(s: string): (r: string)
    ensures |r| <= |s|
    decreases |s|
  {
    if |s| > 0 && IsWhiteSpace(s[0]) then TrimStart(s[1..]) else s
  }

  /** `string.IsNullOrWhiteSpace(s)` agrees with the common spelling
      `s == null || s.Trim().Length == 0`. */
  lemma {:induction false} NullOrWhiteSpaceIsEmptyAfterTrim(s: Option<string>)
    ensures IsNullOrWhiteSpace(s) <==> s.None? || |TrimStart(s.value)| == 0
    decreases if s.Some? then |s.value| else 0
  {
    if s.Some? && |s.value| > 0 {
      var t := s.value;
      if IsWhiteSpace(t[0]) {
        NullOrWhiteSpaceIsEmptyAfterTrim(Some(t[1..]));
        assert IsNullOrWhiteSpace(Some(t[1..])) ==> IsNullOrWhiteSpace(s) by {
          if IsNullOrWhiteSpace(Some(t[1..])) {
            forall i | 0 <= i < |t| ensures IsWhiteSpace(t[i]) {
              if i > 0 { assert t[i] == t[1..][i - 1]; }
            }
          }
        }
        assert IsNullOrWhiteSpace(s) ==> IsNullOrWhiteSpace(Some(t[1..])) by {
          if IsNullOrWhiteSpace(s) {
            forall i | 0 <= i < |t[1..]| ensures IsWhiteSpace(t[1..][i]) {
              assert t[1..][i] == t[i + 1];
            }
          }
        }
      }
    }
  }

  /** Lower-casing of one character; only the ASCII letters A..Z change. */
  function LowerChar(c: char): char {
    if 'A' <= c <= 'Z' then (c as int - 'A' as int + 'a' as int) as char else c
  }

  /** `String.ToLower`, restricted to the ASCII letters. */
  function ToLower(s: string): (r: string)
    ensures |r| == |s|
    ensures forall i :: 0 <= i < |s| ==> r[i] == LowerChar(s[i])
    // no upper-case ASCII letter is left, and every other character is kept
    ensures forall i :: 0 <= i < |r| ==> !('A' <= r[i] <= 'Z')
    ensures forall i :: 0 <= i < |s| && !('A' <= s[i] <= 'Z') ==> r[i] == s[i]
  {
    seq(|s|, i requires 0 <= i < |s| => LowerChar(s[i]))
  }

  /** Lower-casing twice is lower-casing once. */
  lemma ToLowerIsIdempotent(s: string)
    ensures ToLower(ToLower(s)) == ToLower(s)
  {
    var once := ToLower(s);
    forall i | 0 <= i < |once| ensures ToLower(once)[i] == once[i] {
      assert !('A' <= once[i] <= 'Z');
    }
  }

  /** `s` contains `p` as a contiguous substring (ordinal comparison). */
  predicate Contains(s: string, p: string)
    decreases |s|
  {
    |p| <= |s| && (s[..|p|] == p || (|s| > 0 && Contains(s[1..], p)))
  }

  /** `s.Replace(pat, rep)`: scanning left to right, every occurrence of `pat` that does not
      overlap an earlier replaced one is replaced by `rep` (ordinal). */
  function ReplaceAll(s: string, pat: string, rep: string): (r: string)
    requires |pat| > 0
    // a string with no occurrence of the pattern comes back unchanged
    ensures !Contains(s, pat) ==> r == s
    // once an occurrence was replaced, the replacement text appears in the result
    ensures Contains(s, pat) ==> Contains(r, rep)
    decreases |s|
  {
    if |s| < |pat| then s
    else if s[..|pat|] == pat then
      var tail := ReplaceAll(s[|pat|..], pat, rep);
      ContainsPrefix(rep, tail);
      rep + tail
    else
      var tail := ReplaceAll(s[1..], pat, rep);
      assert !Contains(s[1..], pat) ==> [s[0]] + tail == s by {
        if !Contains(s[1..], pat) { assert [s[0]] + s[1..] == s; }
      }
      assert Contains(s[1..], pat) ==> Contains([s[0]] + tail, rep) by {
        if Contains(s[1..], pat) { ContainsAfterCons(s[0], tail, rep); }
      }
      [s[0]] + tail
  }

  lemma ContainsSelf(s: string)
    ensures Contains(s, s)
  {
    assert s[..|s|] == s;
  }

  /** A string is found at the start of anything it prefixes. */
  lemma ContainsPrefix(a: string, t: string)
    ensures Contains(a + t, a)
  {
    assert (a + t)[..|a|] == a;
  }

  /** Putting a character in front never hides a substring. */
  lemma ContainsAfterCons(c: char, u: string, p: string)
    requires Contains(u, p)
    ensures Contains([c] + u, p)
  {
    assert ([c] + u)[1..] == u;
  }

  /** A substring is never longer than the string that contains it. */
  lemma {:induction false} ContainsIsNoLonger(s: string, p: string)
    requires Contains(s, p)
    ensures |p| <= |s|
  {
  }

  /** Replacing a pattern by itself changes nothing. */
  lemma {:induction false} ReplaceAllWithItself(s: string, pat: string)
    requires |pat| > 0
    ensures ReplaceAll(s, pat, pat) == s
    decreases |s|
  {
    if |s| < |pat| {
    } else if s[..|pat|] == pat {
      ReplaceAllWithItself(s[|pat|..], pat);
      assert pat + s[|pat|..] == s;
    } else {
      ReplaceAllWithItself(s[1..], pat);
      assert [s[0]] + s[1..] == s;
    }
  }

  /** The pattern alone is replaced by exactly the replacement. */
  lemma ReplaceAllOfPattern(pat: string, rep: string)
    requires |pat| > 0
    ensures ReplaceAll(pat, pat, rep) == rep
  {
    assert pat[..|pat|] == pat;
    assert pat[|pat|..] == [];
    assert rep + [] == rep;
  }
}

=== FILE: validate_model.dfy ===
/**
  The Web API model-validation filter: rejects a request with 400 Bad Request when any action
  argument is null, and otherwise when model binding left errors in the model state.
 */
module ValidateModel {
  import opened Optional
  import opened Linq
  import opened Http

  /** One model-state entry: the bound key and its binding errors. */
  datatype ModelStateEntry = ModelStateEntry(key: string, errors: seq<string>)

  datatype ModelState = ModelState(entries: seq<ModelStateEntry>)

  /** `ModelState.IsValid`: no entry has an error. */
  predicate IsValid(ms: ModelState) {
    forall i :: 0 <= i < |ms.entries| ==> |ms.entries[i].errors| == 0
  }

  /** The number of binding errors over all entries. */
  function ErrorCount(entries: seq<ModelStateEntry>): (n: nat)
    ensures |entries| > 0 && |entries[0].errors| > 0 ==> n > 0
  {
    if |entries| == 0 then 0 else |entries[0].errors| + ErrorCount(entries[1..])
  }

  /** A model state is valid exactly when binding recorded no error at all. */
  lemma {:induction false} ValidIffNoErrors(ms: ModelState)
    ensures IsValid(ms) <==> ErrorCount(ms.entries) == 0
    decreases |ms.entries|
  {
    if |ms.entries| > 0 {
      var rest := ModelState(ms.entries[1..]);
      ValidIffNoErrors(rest);
      assert IsValid(rest) ==> (IsValid(ms) <==> |ms.entries[0].errors| == 0) by {
        if IsValid(rest) && |ms.entries[0].errors| == 0 {
          forall i | 0 <= i < |ms.entries| ensures |ms.entries[i].errors| == 0 {
            if i > 0 { assert ms.entries[i] == rest.entries[i - 1]; }
          }
        }
      }
      assert IsValid(ms) ==> IsValid(rest) by {
        if IsValid(ms) {
          forall i | 0 <= i < |rest.entries| ensures |rest.entries[i].errors| == 0 {
            assert rest.entries[i] == ms.entries[i + 1];
          }
        }
      }
    }
  }

  const NullArgumentsMessage: string := "Arguments cannot be null"

  /** The body of an error response: a message, or the model state with its errors. */
  datatype ErrorBody = Message(text: string) | ModelStateErrors(state: ModelState)

  datatype ErrorResponse = ErrorResponse(status: int, body: ErrorBody)

  predicate IsNullArgument(a: ActionArgument) {
    a.value.NullArg?
  }

  /** `OnActionExecuting`: the response the filter sets, or `None` to let the action run. */
  function OnActionExecuting(args: seq<ActionArgument>, modelState: ModelState): (r: Option<ErrorResponse>)
    // a null argument is reported first, whatever the model state says
    ensures (exists i :: 0 <= i < |args| && args[i].value.NullArg?) ==>
      r == Some(ErrorResponse(StatusBadRequest, Message(NullArgumentsMessage)))
    // with every argument present, an invalid model state is reported with its errors
    ensures (forall i :: 0 <= i < |args| ==> !args[i].value.NullArg?) && !IsValid(modelState) ==>
      r == Some(ErrorResponse(StatusBadRequest, ModelStateErrors(modelState)))
    // with every argument present (or none at all) and a valid model state, nothing is set
    ensures (forall i :: 0 <= i < |args| ==> !args[i].value.NullArg?) && IsValid(modelState) ==>
      r.None?
    // every response the filter sets is a Bad Request
    ensures r.Some? ==> r.value.status == StatusBadRequest
  {
    if Any(args, IsNullArgument) then
      Some(ErrorResponse(StatusBadRequest, Message(NullArgumentsMessage)))
    else if !IsValid(modelState) then
      Some(ErrorResponse(StatusBadRequest, ModelStateErrors(modelState)))
    else None
  }
}
